=== FILE: README.md ===
# Quiz document parser and quiz session, in Dafny

This project models the two pieces of logic in the EzQuiz app.

The first is the quiz-document parser `parseQuizFile` (utils/parser.ts). It turns a
plain-text exam into a `Quiz`:

- **Title.** The title is the first one-line `### **…**` heading. If there is none, it is the file name with `.txt` removed.
- **Blocks.** The text is cut at every `**Câu` marker.
- **Per block.** Each block yields a question when the block has:
  - a prompt, which runs from the first colon to the next `**`;
  - a well-formed `**Đáp án đúng: X**` answer marker.
- **Options.** The options are the `A.`–`D.` lines between the prompt and the answer marker.

The second is the quiz session in `QuizPlayer` (components/QuizPlayer.tsx):

- **State.** The session holds a question index, the selected label, a submitted flag and a score.
- **Handlers.** There are three: select, submit and next.
- **Highlighting.** A classifier decides how each option is highlighted.
- **Footer button.** It reaches submit before an answer is submitted and next after.

The modules follow the source:

| module | file | models |
|---|---|---|
| `Maybe` | maybe.dfy | `T \| null` and failed regex matches |
| `Text` | text.dfy | the first-occurrence search shared by `split`, `replace` and the regex searches; JavaScript's `split` on a literal, `trim`, `replace` with a string pattern, `\s`, line terminators |
| `Types` | types.dfy | `Option`, `Question`, `Quiz` of types.ts |
| `Parser` | parser.dfy | `parseQuizFile` |
| `Player` | player.dfy | the `QuizPlayer` state, handlers and footer gating |

### How the regular expressions are modelled

Each regex is modelled in two parts:

- a predicate that says what a match at a given position looks like: `TitleAt`, `PromptAt`, `AnswerAt`;
- a search function that tries the positions from left to right: `FindTitleFrom`, `FindPromptFrom`, `FindAnswerFrom`.

Each search is proved to return the leftmost position where the predicate holds. That is the semantics of a leftmost, lazy match.

- **Title** `/### \*\*(.*?)\*\*/`. There is no `s` flag, so the inner text must stay on one line. It ends at the first `**`.
- **Prompt** `/Câu.*?:(.*?)\*\*/s`. The prompt starts at the first colon after `Câu` and ends at the first `**` after that colon. It may cross lines. Every block starts with `Câu`. So this regex either matches at offset 0 or nowhere (`PromptAtBlockStart`).
- **Answer** `/\*\*Đáp án đúng:\s*([A-D])\*\*/`. The greedy `\s*` never needs to backtrack, because no letter `A`–`D` is whitespace.
- **Option line** `/^([A-D])\.\s*(.*)/`. There is no `s` flag. The captured content therefore stops at the first line terminator (`\n`, `\r`, U+2028 or U+2029).

Whitespace is JavaScript's `\s` set. `trim` removes the same set.

### What the code does not check

- **Options are not validated.** A block is kept even when:
  - it has no options, or
  - its answer letter is not the label of one of its options.

  Acceptance depends only on the prompt and answer matches (utils/parser.ts:35,61-66). `BlockAcceptance` states this condition and does not mention the options at all. `KeptWithoutOptions` parses a concrete block with no option lines into a question whose answer `A` names no option.
- **The prompt is cut at the first colon anywhere after `Câu`.** The prompt regex takes the first colon in the block, not the first on the question line (utils/parser.ts:28-45).
  - When the question line has no colon but an option line has one, as in a time `10:30` or a ratio, that colon starts the prompt. The prompt then runs across the remaining option lines up to the next `**`, which is the opening of the answer marker. Every option is lost: the lines before the colon fall outside the options region, and the rest end up in the prompt. The region `substring` takes between the prompt's end and the answer marker is then the marker's own `**` alone. With the usual header `**Câu 1: …**` the first colon is on the question line, and none of this happens.
  - When no colon comes before the answer marker, neither in the question line nor in an option line, the first colon is the one inside `**Đáp án đúng:`. The prompt then ends at the `**` after the answer letter, beyond the answer marker, so `substring` swaps its bounds. `AnswerInsidePrompt` parses such a block into a question whose prompt is the answer letter itself.
- **Ids have gaps.** Question ids are block positions among all blocks, rejected ones included, so they are not dense 1..N over the kept questions (utils/parser.ts:22,62). `QuestionsAreAcceptedBlocks` and `AcceptedIds` state this. `RejectedBlockLeavesGap` shows the consequence: when the first block is dropped and the second kept, the first question is numbered 2.

### Modelling choices

- Labels and `correctAnswer` are strings, as in the source.
  - The option field `label` is called `letter`, because `label` is a reserved word in Dafny.
  - `correctAnswer` is the single letter the regex captured. The source's `trim()` of a one-letter capture leaves it unchanged.
- The quiz id `Date.now().toString()` is a parameter of `ParseQuizFile`.
- The text of an explanation is a parameter of `ReceiveExplanation`.
- The player's handlers require what the component needs in order to render: a question at `currentIndex`.
  - An empty quiz makes the component read a field of `undefined`.
  - `handleSubmit` reads the current question only when a selection exists. Its precondition says exactly that.
- `selectedOption` is read for its JavaScript truthiness, so an empty-string selection counts as none (`Truthy`).
- `Step` delivers a user action to the handler it reaches, and `Enabled` says which actions the rendered component offers:
  - clicks on the current question's options;
  - the footer button, which is submit (disabled without a selection) before submitting and next after;
  - the explanation, offered once submitted and while none is shown.

## Model

| member | source | states |
|---|---|---|
| `Text.Trim` | utils/parser.ts:36 | the result is an infix of the input, with only whitespace cut from either end and no whitespace left at either end |
| `Text.TrimUnique` | utils/parser.ts:46 | text wrapped in whitespace, with non-whitespace ends, trims to exactly that text |
| `Text.TrimIdempotent` | utils/parser.ts:46 | trimming an already trimmed string changes nothing |
| `Text.Split` | utils/parser.ts:17 | splitting gives at least one piece, even for empty text |
| `Text.SplitPiecesFree` | utils/parser.ts:17 | no piece contains the separator |
| `Text.SplitAbsent` | utils/parser.ts:17 | text without the separator splits into itself alone, and text with it into at least two pieces |
| `Text.SplitJoin` | utils/parser.ts:17 | joining the pieces with the separator gives back the original text |
| `Text.SplitPieces` | utils/parser.ts:17-20 | there are at most occurrences + 1 pieces |
| `Text.ReplaceFirst` | utils/parser.ts:9 | text without the pattern is unchanged; otherwise only the leftmost occurrence is replaced |
| `Parser.TitleMatchAt` | utils/parser.ts:7-8 | at a given position, finds the closing `**` exactly when the one-line title heading matches there |
| `Parser.FindTitleFrom` | utils/parser.ts:7-8 | returns the leftmost title match, or reports that there is none anywhere |
| `Parser.TitleLeftmostUnique` | utils/parser.ts:7-8 | the leftmost title match is unique: any title match with none to its left has the same start and the same closing `**` |
| `Parser.ExtractTitle` | utils/parser.ts:7-9 | the title is the trimmed inner text of the leftmost title heading; with no heading, it is the file name with its first `.txt` removed |
| `Parser.FallbackStripsExtension` | utils/parser.ts:9 | a name that is `base + ".txt"`, with no `.txt` inside `base`, falls back to exactly `base` |
| `Parser.FallbackRemovesInnerExtension` | utils/parser.ts:9 | the first `.txt` is removed even when it is not a suffix: `notes.txt.bak` becomes `notes.bak` |
| `Parser.QuestionBlocks` | utils/parser.ts:17-20 | there are no more blocks than `**Câu` markers, none without a marker, and no block contains a marker |
| `Parser.QuestionBlocksJoin` | utils/parser.ts:17-20 | with a marker present, the document is a marker-free header, the marker, and the blocks joined by the marker: only the header is dropped |
| `Parser.PromptMatchAt` | utils/parser.ts:28-29 | at a given position, matches exactly when there is `Câu`, then a first colon, then a first `**` after that colon |
| `Parser.FindPromptFrom` | utils/parser.ts:28-29 | returns the leftmost prompt match, or reports that there is none anywhere |
| `Parser.PromptAtBlockStart` | utils/parser.ts:24-29 | on a block, the leftmost prompt match is the match at offset 0 |
| `Parser.PromptShape` | utils/parser.ts:28-29 | the prompt regex matches a block exactly when the block has a colon followed later by `**` |
| `Parser.PromptHasNoBold` | utils/parser.ts:28-36 | the trimmed prompt never contains `**` |
| `Parser.AnswerMatchAt` | utils/parser.ts:32-33 | at a given position, matches exactly when there is the marker, then only whitespace, then a letter A–D followed by `**` |
| `Parser.FindAnswerFrom` | utils/parser.ts:32-33 | returns the leftmost answer match, or reports that there is none anywhere |
| `Parser.Substring` | utils/parser.ts:45 | the result is as long as the distance between the bounds, and its characters are those from the smaller bound on |
| `Parser.SubstringSwap` | utils/parser.ts:45 | swapping the bounds gives the same text |
| `Parser.TrimmedLine` | utils/parser.ts:46 | a line whose trimmed form is non-empty contributes exactly that trimmed form; a blank line contributes nothing |
| `Parser.TrimNonEmpty` | utils/parser.ts:46 | no more lines than the input; every kept line is non-empty and already trimmed |
| `Parser.TrimNonEmptyAppend` | utils/parser.ts:46 | `map` and `filter` work line by line: two consecutive stretches of lines give the concatenation of their results |
| `Parser.TrimNonEmptyMembers` | utils/parser.ts:46 | a line is kept exactly when it is the non-empty trimmed form of some input line |
| `Parser.OptionLines` | utils/parser.ts:45-46 | the candidate option lines of the region are non-empty and trimmed |
| `Parser.OptionLinesMembers` | utils/parser.ts:45-46 | a candidate option line is exactly the non-empty trimmed form of some piece of the region split at `\n`, and it holds no `\n` |
| `Parser.TakeLine` | utils/parser.ts:52 | `(.*)` captures the longest prefix free of line terminators |
| `Parser.TakeLineWhole` | utils/parser.ts:52 | `(.*)` takes a line with no line terminator whole |
| `Parser.ParseOptionLine` | utils/parser.ts:50-58 | a line gives an option exactly when it starts with `[A-D].`; the label is that letter, and the content is the rest after the dot and any whitespace, up to a line terminator |
| `Parser.SpacedOptionLine` | utils/parser.ts:51-57 | `B. 4` gives the option labelled `B` with content `4` |
| `Parser.UnspacedOptionLine` | utils/parser.ts:51-57 | `C.42` gives the option labelled `C` with content `42`: no space is needed after the dot |
| `Parser.NonOptionLines` | utils/parser.ts:52-53 | `E. 5` (letter outside A–D) and `A 5` (no dot) give no option |
| `Parser.OptionsOf` | utils/parser.ts:52-58 | a line that parses contributes exactly its option; any other line contributes nothing |
| `Parser.ParseOptions` | utils/parser.ts:48-59 | no more options than lines, and every option label is one of A–D |
| `Parser.ParseOptionsMembers` | utils/parser.ts:48-59 | an option is among the options exactly when some line parses to it |
| `Parser.ParseOptionsAppend` | utils/parser.ts:50-59 | options keep line order: the options of two consecutive stretches of lines are concatenated |
| `Parser.ParseBlock` | utils/parser.ts:24-67 | an accepted block has id index + 1, a one-letter A–D correct answer, A–D option labels, and a prompt without `**` |
| `Parser.BuildQuestion` | utils/parser.ts:36-66 | the question built from a prompt match and an answer match has id index + 1, the answer letter as its correct answer, A–D option labels, and a prompt without `**` |
| `Parser.BlockAcceptance` | utils/parser.ts:28-35 | a block becomes a question exactly when it has a colon followed later by `**` and a well-formed answer marker; the options play no part |
| `Parser.BlockFields` | utils/parser.ts:35-66 | prompt, options and correct answer of an accepted block, in terms of the leftmost prompt and answer matches |
| `Parser.BlockBuilt` | utils/parser.ts:28-35 | given the leftmost prompt and answer matches, the block is assembled from exactly those matches |
| `Parser.PromptFound` | utils/parser.ts:28-29 | on a block, any prompt match at offset 0 is the one the regex finds |
| `Parser.AnswerFound` | utils/parser.ts:32-33 | a leftmost answer match is the one the regex finds |
| `Parser.BlockOutcomes` | utils/parser.ts:22-24 | there is one outcome per block, and each block is parsed with its own position among all blocks as its index |
| `Parser.Accepted` | utils/parser.ts:61-67 | the collected questions are exactly the accepted outcomes, and there are no more of them than blocks |
| `Parser.AcceptedIds` | utils/parser.ts:22-62 | numbering by block position makes ids strictly increasing, and each id leads back to its own block |
| `Parser.ParseQuizFile` | utils/parser.ts:3-76 | id and file name pass through; the title is the extracted one; there are at most as many questions as markers, and none without a marker; ids are ≥ 1 and strictly increasing; correct answers and labels are A–D, and prompts have no `**` |
| `Parser.QuestionsAreAcceptedBlocks` | utils/parser.ts:20-66 | question `q` comes from block `q.id - 1` among all post-header blocks, and every block that parses is among the questions |
| `Parser.RejectedBlockLeavesGap` | utils/parser.ts:22-62 | when the first block is rejected and the second accepted, the quiz's first question has id 2 |
| `Parser.GapAfterDropped` | utils/parser.ts:22-62 | among numbered block outcomes, a dropped first block and a kept second one make the first accepted question's id 2 |
| `Parser.KeptWithoutOptions` | utils/parser.ts:35-66 | the block ` 1: Q**`, a line break, `**Đáp án đúng: A**` becomes question 1 with prompt `Q`, no options and answer `A` |
| `Parser.StarLineNoOptions` | utils/parser.ts:46-53 | a single line without a line break that starts and ends with `*` gives no option |
| `Parser.AnswerInsidePrompt` | utils/parser.ts:28-45 | the block ` 1`, a line break, `**Đáp án đúng: B**` becomes question 1 with prompt `B`, no options and answer `B`: the prompt runs past the answer marker and the option region's bounds are swapped |
| `Parser.EmptyDocument` | utils/parser.ts:9-20 | an empty document gives no questions and the fallback title |
| `Parser.IdOnlyFromClock` | utils/parser.ts:70-75 | title and questions do not depend on the quiz id |
| `Player.HandleSelect` | components/QuizPlayer.tsx:23-26 | after submit, nothing changes; before submit, the label is recorded and nothing else changes |
| `Player.HandleSubmit` | components/QuizPlayer.tsx:28-34 | without a selection, nothing changes; with one, the answer is submitted and the score rises by 1 exactly when the selection is the correct answer; the score never falls |
| `Player.HandleNext` | components/QuizPlayer.tsx:36-45 | before the last question, the index advances by exactly one and selection, submitted flag and explanation are reset; on the last question, the state is unchanged and `(score, questions.length)` is reported |
| `Player.ReceiveExplanation` | components/QuizPlayer.tsx:47-52 | only the explanation changes |
| `Player.GetOptionClass` | components/QuizPlayer.tsx:54-72 | before submit, an option is Selected or Neutral by whether it is chosen; after submit, it is Correct exactly when it is the answer, Wrong exactly when it is chosen but not the answer, and otherwise Dimmed |
| `Player.HighlightAgreesWithScore` | components/QuizPlayer.tsx:28-72 | after a submit, the chosen option is highlighted Correct exactly when the score rose, and Wrong exactly when it did not |
| `Player.AtMostOneWrong` | components/QuizPlayer.tsx:67-69 | after submit, at most one label is highlighted Wrong |
| `Player.Enabled` | components/QuizPlayer.tsx:104-182 | the rendered component offers clicks on the current question's options, the footer button when submitted or once a selection exists, and the explanation once submitted while none is shown |
| `Player.PressEnabledExactlyWhenEffective` | components/QuizPlayer.tsx:165-182 | the footer button is enabled exactly when pressing it changes the state or ends the quiz: a disabled submit would do nothing |
| `Player.Step` | components/QuizPlayer.tsx:104-182 | a click reaches `handleSelect` (ignored after submit); the footer reaches `handleSubmit` before submit and `handleNext` after, advancing and resetting before the last question; the quiz ends, with `(score, total)` and the state unchanged, exactly on the next button of the last question; an explanation changes only itself; no action lowers the score |
| `Player.StartInv` | components/QuizPlayer.tsx:14-17 | a non-empty quiz starts in a state that satisfies the session invariant |
| `Player.StepKeepsInv` | components/QuizPlayer.tsx:165-182 | every action the component offers keeps the index in bounds and `score ≤ answered questions`; a finished quiz reports `0 ≤ score ≤ total` |
| `Player.HandlersKeepIndexInBounds` | components/QuizPlayer.tsx:36-41 | even without the gating, the handlers keep the index in bounds |
| `Player.UngatedSubmitScoresTwice` | components/QuizPlayer.tsx:28-34 | `handleSubmit` does not check `isSubmitted`, so the score bound needs the footer gating |
| `Player.Play` | components/QuizPlayer.tsx:14-45 | along any sequence of user actions, `0 ≤ score ≤ currentIndex + 1 ≤ questions.length` while playing; the quiz finishes only from the submitted last question, and reports `0 ≤ score ≤ total` |

## Left out

- **Unused `lines`.** The `lines` variable (utils/parser.ts:4) is never used.
- **The quiz id.** `Date.now()` is a parameter, because it reads the wall clock.
- **The `rawType` field** of `Question` is never set by the parser.
- **Unicode.** The model has no Unicode normalisation: `Câu` and `Đáp án đúng` are compared as the literal characters written here. A Dafny `char` is a Unicode scalar value, while JavaScript strings are sequences of UTF-16 code units, so a character outside the Basic Multilingual Plane is one character here and two code units there. No marker, whitespace or line-terminator test tells the two apart, since all of them are in the Basic Multilingual Plane; only the indices differ, and the model never exposes an index.
- **The explanation request.** `handleExplain` (components/QuizPlayer.tsx:47-52) and services/geminiService.ts make an asynchronous network call. Only its effect on the state is modelled (`ReceiveExplanation`).
  - The `loadingExplanation` flag is left out.
  - So is the possibility of a reply arriving after `handleNext` has moved on.
- **Rendering.** The model leaves out all JSX and CSS class strings:
  - the progress bar's floating-point width;
  - the label badge colours (components/QuizPlayer.tsx:111-114), which repeat the `getOptionClass` decision;
  - components/Button.tsx.
- **File loading.** components/FileUploader.tsx is left out: it does file reading and `alert`, and wraps `parseQuizFile`.
- **App.tsx.** It is left out:
  - `localStorage` persistence and JSON parsing;
  - the view switching;
  - the one-line quiz list append and delete;
  - the percentage grade, which uses floating point.
- Parser.Substring: requires both bounds to lie within the text instead of clamping them as JavaScript does. Every call passes the end of the prompt match and the start of the answer match, which always lie within the block.
- Parser.ParseOptions: states its contents through `ParseOptionsMembers` and its order through `ParseOptionsAppend`, not as an index mapping from options back to lines.

=== FILE: maybe.dfy ===
/** A value that may be absent: the source's `T | null` and failed regex matches. */
module Maybe {

  datatype Maybe<+T> = None | Some(value: T)
}

=== FILE: parser.dfy ===
/**
  The quiz-document parser (`parseQuizFile` in utils/parser.ts).

  Each regular expression of the source is written out as an explicit
  leftmost search over the text, next to a predicate that says what a match
  at a given position looks like (`TitleAt`, `PromptAt`, `AnswerAt`). The
  search functions are proved to find exactly the leftmost position that
  satisfies the predicate, which is what a lazy, leftmost regex match is.
 */
module Parser {
  import opened Maybe
  import opened Text
  import opened Types

  /** Opening of the title heading `### **`. */
  const TitleOpen: string := "### **"
  /** Bold delimiter, closing the title, the prompt and the answer marker. */
  const Bold: string := "**"
  /** The block separator `**Câu` the document is split on. */
  const QuestionMarker: string := "**Câu"
  /** The word put back on the front of every block. */
  const QuestionWord: string := "Câu"
  const Colon: string := ":"
  /** The literal part of the answer marker `**Đáp án đúng:`. */
  const AnswerMarker: string := "**Đáp án đúng:"
  /** The extension removed from the file name to make the fallback title. */
  const FileExtension: string := ".txt"
  const Newline: string := "\n"

  // ---------------------------------------------------------------------------
  // Title: /### \*\*(.*?)\*\*/ (no `s` flag, so the title stays on one line)
  // ---------------------------------------------------------------------------

  /**
    The title regex matches at `p` with its closing `**` at `q`: the heading
    opens at `p`, and `q` is the first `**` after it, with no line break before.
   */
  predicate TitleAt(s: string, p: int, q: int) {
    && HasAt(s, p, TitleOpen)
    && p + |TitleOpen| <= q
    && HasAt(s, q, Bold)
    && forall k :: p + |TitleOpen| <= k < q ==> !IsLineTerminator(s[k]) && !HasAt(s, k, Bold)
  }

  /** Tries the title regex at position `p` only; returns where the closing `**` starts. */
  function TitleMatchAt(s: string, p: nat): (r: Maybe<nat>)
    ensures r.Some? ==> TitleAt(s, p, r.value)
    ensures r.None? ==> forall q :: !TitleAt(s, p, q)
  {
    if !HasAt(s, p, TitleOpen) then None
    else match IndexOfFrom(s, Bold, p + |TitleOpen|)
      case None => None
      case Some(q) =>
        if forall k :: p + |TitleOpen| <= k < q ==> !IsLineTerminator(s[k]) then Some(q) else None
  }

  /** The leftmost title match at or after `from`, as (start of heading, start of closing `**`). */
  function FindTitleFrom(s: string, from: nat): (r: Maybe<(nat, nat)>)
    ensures r.Some? ==> from <= r.value.0 && TitleAt(s, r.value.0, r.value.1)
    ensures r.Some? ==> forall p, q :: from <= p < r.value.0 ==> !TitleAt(s, p, q)
    ensures r.None? ==> forall p, q :: from <= p ==> !TitleAt(s, p, q)
    decreases |s| - from
  {
    if from > |s| then None
    else match TitleMatchAt(s, from)
      case Some(q) => Some((from, q))
      case None => FindTitleFrom(s, from + 1)
  }

  /**
    The quiz title: the trimmed text of the leftmost one-line `### **…**`
    heading, or else the file name with its first `.txt` removed.
   */
  function ExtractTitle(content: string, fileName: string): (r: string)
    ensures forall p, q :: TitleAt(content, p, q) && (forall p', q' :: 0 <= p' < p ==> !TitleAt(content, p', q')) ==>
              r == Trim(content[p + |TitleOpen|..q])
    ensures (forall p, q :: !TitleAt(content, p, q)) ==> r == ReplaceFirst(fileName, FileExtension, "")
  {
    match FindTitleFrom(content, 0)
    case Some((p0, q0)) =>
      TitleLeftmostUnique(content, p0, q0);
      Trim(content[p0 + |TitleOpen|..q0])
    case None => ReplaceFirst(fileName, FileExtension, "")
  }

  /** The leftmost title match is the only title match that has no other to its left. */
  lemma TitleLeftmostUnique(s: string, p0: nat, q0: nat)
    requires TitleAt(s, p0, q0) && forall p, q :: 0 <= p < p0 ==> !TitleAt(s, p, q)
    ensures forall p, q :: TitleAt(s, p, q) && (forall p', q' :: 0 <= p' < p ==> !TitleAt(s, p', q')) ==> p == p0 && q == q0
  {
  }

  /** A file name that ends in `.txt` and has no other `.txt` loses exactly that suffix. */
  lemma FallbackStripsExtension(base: string)
    requires !Contains(base, FileExtension)
    ensures ReplaceFirst(base + FileExtension, FileExtension, "") == base
  {
    var s := base + FileExtension;
    assert HasAt(s, |base|, FileExtension) by {
      assert s[|base|..|base| + 4] == FileExtension;
    }
    // An occurrence reaching into the suffix would put the suffix's `.` on a `t` or `x`.
    forall q | 0 <= q < |base| < q + 4 ensures !HasAt(s, q, FileExtension) {
      assert s[q..q + 4][|base| - q] == '.';
    }
    forall q | 0 <= q < |base| ensures !HasAt(s, q, FileExtension) {
      if HasAt(s, q, FileExtension) && q + 4 <= |base| {
        HasAtInSlice(s, 0, |base|, q, FileExtension);
      }
    }
    assert s[..|base|] + "" + s[|base| + 4..] == base;
  }

  /** The first `.txt` is removed wherever it is, not only at the end of the name. */
  lemma FallbackRemovesInnerExtension()
    ensures ReplaceFirst("notes.txt.bak", FileExtension, "") == "notes.bak"
  {
    var s := "notes.txt.bak";
    assert HasAt(s, 5, FileExtension) by { assert s[5..9] == FileExtension; }
    forall q | 0 <= q < 5 ensures !HasAt(s, q, FileExtension) {
      assert s[q] != '.';
    }
    assert s[..5] + "" + s[9..] == "notes.bak";
  }

  // ---------------------------------------------------------------------------
  // Blocks: content.split(/\*\*Câu/g).slice(1)
  // ---------------------------------------------------------------------------

  /** The text after each `**Câu` marker, up to the next one; the header before the first is dropped. */
  function QuestionBlocks(content: string): (r: seq<string>)
    ensures |r| <= Occurrences(content, QuestionMarker)
    ensures !Contains(content, QuestionMarker) ==> r == []
    ensures forall i :: 0 <= i < |r| ==> !Contains(r[i], QuestionMarker)
  {
    SplitPieces(content, QuestionMarker);
    SplitAbsent(content, QuestionMarker);
    SplitPiecesFree(content, QuestionMarker);
    Split(content, QuestionMarker)[1..]
  }

  /**
    The blocks lose nothing after the first marker: the document is a header
    free of markers, then the marker, then the blocks joined by the marker.
   */
  lemma QuestionBlocksJoin(content: string)
    requires Contains(content, QuestionMarker)
    ensures |QuestionBlocks(content)| >= 1
    ensures exists h :: !Contains(h, QuestionMarker) &&
              content == h + QuestionMarker + Join(QuestionBlocks(content), QuestionMarker)
  {
    var parts := Split(content, QuestionMarker);
    SplitAbsent(content, QuestionMarker);
    SplitPiecesFree(content, QuestionMarker);
    SplitJoin(content, QuestionMarker);
    assert parts[1..] == QuestionBlocks(content);
    assert content == parts[0] + QuestionMarker + Join(parts[1..], QuestionMarker);
    assert !Contains(parts[0], QuestionMarker);
  }

  // ---------------------------------------------------------------------------
  // Prompt: /Câu.*?:(.*?)\*\*/s
  // ---------------------------------------------------------------------------

  /** Where the prompt regex matched: its start, the colon, and the closing `**`. */
  datatype PromptMatch = PromptMatch(start: nat, colon: nat, close: nat)

  /**
    The prompt regex matches at `p` with colon `j` and closing `**` at `k`:
    `j` is the first colon after the word `Câu`, and `k` the first `**` after
    the colon. The `s` flag lets both stretches cross lines.
   */
  predicate PromptAt(s: string, p: int, j: int, k: int) {
    && HasAt(s, p, QuestionWord)
    && p + |QuestionWord| <= j < k
    && HasAt(s, j, Colon)
    && HasAt(s, k, Bold)
    && (forall i :: p + |QuestionWord| <= i < j ==> !HasAt(s, i, Colon))
    && (forall i :: j < i < k ==> !HasAt(s, i, Bold))
  }

  /** Tries the prompt regex at position `p` only. */
  function PromptMatchAt(s: string, p: nat): (r: Maybe<PromptMatch>)
    ensures r.Some? ==> r.value.start == p && PromptAt(s, p, r.value.colon, r.value.close)
    ensures r.None? ==> forall j, k :: !PromptAt(s, p, j, k)
  {
    if !HasAt(s, p, QuestionWord) then None
    else match IndexOfFrom(s, Colon, p + |QuestionWord|)
      case None => None
      case Some(j) =>
        match IndexOfFrom(s, Bold, j + 1)
        case None => None
        case Some(k) => Some(PromptMatch(p, j, k))
  }

  /** The leftmost prompt match at or after `from`. */
  function FindPromptFrom(s: string, from: nat): (r: Maybe<PromptMatch>)
    ensures r.Some? ==> from <= r.value.start && PromptAt(s, r.value.start, r.value.colon, r.value.close)
    ensures r.Some? ==> forall p, j, k :: from <= p < r.value.start ==> !PromptAt(s, p, j, k)
    ensures r.None? ==> forall p, j, k :: from <= p ==> !PromptAt(s, p, j, k)
    decreases |s| - from
  {
    if from > |s| then None
    else match PromptMatchAt(s, from)
      case Some(m) => Some(m)
      case None => FindPromptFrom(s, from + 1)
  }

  /** The block has a colon with a `**` somewhere after it. */
  ghost predicate HasPromptShape(block: string) {
    exists j, k :: 0 <= j < k && HasAt(block, j, Colon) && HasAt(block, k, Bold)
  }

  /** A block is the text after the marker, with the word `Câu` put back in front. */
  lemma BlockShift(block: string, i: int, pat: string)
    requires 0 <= i
    ensures HasAt(block, i, pat) <==> HasAt(QuestionWord + block, i + |QuestionWord|, pat)
  {
    var s := QuestionWord + block;
    assert s[|QuestionWord|..|s|] == block;
    if HasAt(block, i, pat) {
      HasAtSlice(s, |QuestionWord|, |s|, i, pat);
    }
    if HasAt(s, i + |QuestionWord|, pat) {
      HasAtInSlice(s, |QuestionWord|, |s|, i + |QuestionWord|, pat);
    }
  }

  /**
    On a block, the prompt regex matches at the start or nowhere: any later
    `Câu` only looks for its colon further on, so it cannot succeed where the
    first one failed.
   */
  lemma PromptAtBlockStart(block: string)
    ensures FindPromptFrom(QuestionWord + block, 0) == PromptMatchAt(QuestionWord + block, 0)
  {
    var s := QuestionWord + block;
    assert HasAt(s, 0, QuestionWord) by { assert s[..3] == QuestionWord; }
  }

  /** The prompt regex matches a block exactly when the block has a colon followed later by `**`. */
  lemma PromptShape(block: string)
    ensures PromptMatchAt(QuestionWord + block, 0).Some? <==> HasPromptShape(block)
  {
    var s := QuestionWord + block;
    assert HasAt(s, 0, QuestionWord) by { assert s[..3] == QuestionWord; }
    var w := |QuestionWord|;
    match PromptMatchAt(s, 0)
    case Some(m) =>
      BlockShift(block, m.colon - w, Colon);
      BlockShift(block, m.close - w, Bold);
    case None =>
      if HasPromptShape(block) {
        var j, k :| 0 <= j < k && HasAt(block, j, Colon) && HasAt(block, k, Bold);
        BlockShift(block, j, Colon);
        BlockShift(block, k, Bold);
      }
  }

  /** The captured prompt never contains `**`: it stops at the first one. */
  lemma PromptHasNoBold(s: string, p: int, j: int, k: int)
    requires PromptAt(s, p, j, k)
    ensures !Contains(Trim(s[j + 1..k]), Bold)
  {
    var inner := s[j + 1..k];
    if m :| 0 <= m <= |inner| && HasAt(inner, m, Bold) {
      HasAtSlice(s, j + 1, k, m, Bold);
    }
    TrimKeepsAbsence(inner, Bold);
  }

  // ---------------------------------------------------------------------------
  // Answer: /\*\*Đáp án đúng:\s*([A-D])\*\*/
  // ---------------------------------------------------------------------------

  /** Where the answer regex matched: its start and the index of the answer letter. */
  datatype AnswerMatch = AnswerMatch(start: nat, letterAt: nat)

  /**
    The answer regex matches at `p` with its letter at `q`: the marker, then
    only whitespace, then a letter `A`–`D` directly followed by `**`.
   */
  predicate AnswerAt(s: string, p: int, q: int) {
    && HasAt(s, p, AnswerMarker)
    && p + |AnswerMarker| <= q < |s|
    && (forall k :: p + |AnswerMarker| <= k < q ==> IsWhitespace(s[k]))
    && IsLabel(s[q])
    && HasAt(s, q + 1, Bold)
  }

  /** Some answer marker in `s` is well formed. */
  ghost predicate HasAnswer(s: string) {
    exists p, q :: AnswerAt(s, p, q)
  }

  /** Tries the answer regex at position `p` only; the greedy `\s*` runs to the first non-space. */
  function AnswerMatchAt(s: string, p: nat): (r: Maybe<AnswerMatch>)
    ensures r.Some? ==> r.value.start == p && AnswerAt(s, p, r.value.letterAt)
    ensures r.None? ==> forall q :: !AnswerAt(s, p, q)
  {
    if !HasAt(s, p, AnswerMarker) then None
    else
      var q := SkipWhitespace(s, p + |AnswerMarker|);
      if q < |s| && IsLabel(s[q]) && HasAt(s, q + 1, Bold) then Some(AnswerMatch(p, q))
      else
        None
  }

  /** The leftmost answer match at or after `from`. */
  function FindAnswerFrom(s: string, from: nat): (r: Maybe<AnswerMatch>)
    ensures r.Some? ==> from <= r.value.start && AnswerAt(s, r.value.start, r.value.letterAt)
    ensures r.Some? ==> forall p, q :: from <= p < r.value.start ==> !AnswerAt(s, p, q)
    ensures r.None? ==> forall p, q :: from <= p ==> !AnswerAt(s, p, q)
    decreases |s| - from
  {
    if from > |s| then None
    else match AnswerMatchAt(s, from)
      case Some(m) => Some(m)
      case None => FindAnswerFrom(s, from + 1)
  }

  // ---------------------------------------------------------------------------
  // Options: the text between the prompt match and the answer match
  // ---------------------------------------------------------------------------

  /** `s.substring(a, b)`: JavaScript swaps the bounds when `a > b`. */
  function Substring(s: string, a: nat, b: nat): (r: string)
    requires a <= |s| && b <= |s|
    ensures |r| == if a <= b then b - a else a - b
    ensures forall i :: 0 <= i < |r| ==> r[i] == s[(if a <= b then a else b) + i]
  {
    if a <= b then s[a..b] else s[b..a]
  }

  /** The order of the bounds does not matter. */
  lemma SubstringSwap(s: string, a: nat, b: nat)
    requires a <= |s| && b <= |s|
    ensures Substring(s, a, b) == Substring(s, b, a)
  {
  }

  /** Every line is non-empty and already trimmed. */
  predicate TrimmedLines(lines: seq<string>) {
    forall i :: 0 <= i < |lines| ==> |lines[i]| > 0 && Trim(lines[i]) == lines[i]
  }

  lemma TrimmedLinesAppend(a: seq<string>, b: seq<string>)
    requires TrimmedLines(a) && TrimmedLines(b)
    ensures TrimmedLines(a + b)
  {
    forall i | 0 <= i < |a + b| ensures |(a + b)[i]| > 0 && Trim((a + b)[i]) == (a + b)[i] {
      if i >= |a| { assert (a + b)[i] == b[i - |a|]; }
    }
  }

  /** What one line contributes to the option lines: its trimmed form, unless that is empty. */
  function TrimmedLine(line: string): (r: seq<string>)
    ensures |Trim(line)| > 0 ==> r == [Trim(line)]
    ensures |Trim(line)| == 0 ==> r == []
    ensures TrimmedLines(r)
  {
    var t := Trim(line);
    TrimIdempotent(line);
    if |t| > 0 then [t] else []
  }

  /** `lines.map(l => l.trim()).filter(l => l.length > 0)`. */
  function TrimNonEmpty(lines: seq<string>): (r: seq<string>)
    ensures |r| <= |lines|
    ensures TrimmedLines(r)
  {
    if lines == [] then []
    else
      var h, tl := TrimmedLine(lines[0]), TrimNonEmpty(lines[1..]);
      TrimmedLinesAppend(h, tl);
      h + tl
  }

  /** Trimming and dropping blank lines works line by line: stretches of lines concatenate. */
  lemma {:induction false} TrimNonEmptyAppend(a: seq<string>, b: seq<string>)
    ensures TrimNonEmpty(a + b) == TrimNonEmpty(a) + TrimNonEmpty(b)
  {
    if a == [] {
      assert a + b == b;
    } else {
      TrimNonEmptyConsAppend(a, b);
      TrimNonEmptyAppend(a[1..], b);
      TrimNonEmptyStep(a);
      AppendAssoc(TrimmedLine(a[0]), TrimNonEmpty(a[1..]), TrimNonEmpty(b));
    }
  }

  /** Unfolding TrimNonEmpty on `a + b` when `a` has a first line. */
  lemma TrimNonEmptyConsAppend(a: seq<string>, b: seq<string>)
    requires a != []
    ensures TrimNonEmpty(a + b) == TrimmedLine(a[0]) + TrimNonEmpty(a[1..] + b)
  {
    var ab := a + b;
    assert ab[0] == a[0] && ab[1..] == a[1..] + b;
    TrimNonEmptyStep(ab);
  }

  /** Concatenation is associative; stated once so that sequences of strings are not compared element by element. */
  lemma AppendAssoc<T>(x: seq<T>, y: seq<T>, z: seq<T>)
    ensures x + (y + z) == (x + y) + z
  {
  }

  /** One unfolding of TrimNonEmpty. */
  lemma TrimNonEmptyStep(lines: seq<string>)
    requires lines != []
    ensures TrimNonEmpty(lines) == TrimmedLine(lines[0]) + TrimNonEmpty(lines[1..])
  {
  }

  /** A line survives exactly when it is the trimmed form of some line that is not blank. */
  lemma {:induction false} TrimNonEmptyMembers(lines: seq<string>, t: string)
    ensures t in TrimNonEmpty(lines) <==> exists l :: l in lines && |Trim(l)| > 0 && Trim(l) == t
  {
    if lines != [] {
      var tl := lines[1..];
      TrimNonEmptyStep(lines);
      TrimNonEmptyMembers(tl, t);
      if exists l :: l in lines && |Trim(l)| > 0 && Trim(l) == t {
        var l :| l in lines && |Trim(l)| > 0 && Trim(l) == t;
        if l != lines[0] { assert l in tl; }
      }
      if exists l :: l in tl && |Trim(l)| > 0 && Trim(l) == t {
        var l :| l in tl && |Trim(l)| > 0 && Trim(l) == t;
        assert l in lines;
      }
    }
  }

  /** The candidate option lines of a region: split on `\n`, trimmed, blank ones dropped. */
  function OptionLines(region: string): (r: seq<string>)
    ensures TrimmedLines(r)
  {
    TrimNonEmpty(Split(region, Newline))
  }

  /** The option lines are the trimmed, non-blank lines of the region; none holds a line break. */
  lemma OptionLinesMembers(region: string, t: string)
    ensures t in OptionLines(region) <==>
              exists l :: l in Split(region, Newline) && |Trim(l)| > 0 && Trim(l) == t
    ensures t in OptionLines(region) ==> !Contains(t, Newline)
  {
    var lines := Split(region, Newline);
    TrimNonEmptyMembers(lines, t);
    if t in OptionLines(region) {
      var l :| l in lines && |Trim(l)| > 0 && Trim(l) == t;
      SplitPiecesFree(region, Newline);
      var i :| 0 <= i < |lines| && lines[i] == l;
      TrimKeepsAbsence(l, Newline);
    }
  }

  /** JavaScript's greedy `(.*)` without the `s` flag: the longest prefix free of line terminators. */
  function TakeLine(s: string): (r: string)
    ensures r <= s
    ensures forall k :: 0 <= k < |r| ==> !IsLineTerminator(r[k])
    ensures |r| < |s| ==> IsLineTerminator(s[|r|])
  {
    if |s| == 0 || IsLineTerminator(s[0]) then [] else [s[0]] + TakeLine(s[1..])
  }

  /** A line with no line terminator is taken whole. */
  lemma TakeLineWhole(s: string)
    requires forall k :: 0 <= k < |s| ==> !IsLineTerminator(s[k])
    ensures TakeLine(s) == s
  {
  }

  /**
    `content` is what `^([A-D])\.\s*(.*)` captures after the label and dot:
    skip all whitespace, then take the rest up to the first line terminator.
   */
  ghost predicate OptionContent(line: string, content: string) {
    exists k :: 2 <= k <= |line| && AllWhitespace(line[2..k]) && (k < |line| ==> !IsWhitespace(line[k]))
      && content <= line[k..]
      && (forall i :: 0 <= i < |content| ==> !IsLineTerminator(content[i]))
      && (k + |content| < |line| ==> IsLineTerminator(line[k + |content|]))
  }

  /** One option line, `A. text` or `A.text`; any other line gives nothing. */
  function ParseOptionLine(line: string): (r: Maybe<Option>)
    ensures r.Some? <==> |line| >= 2 && IsLabel(line[0]) && line[1] == '.'
    ensures r.Some? ==> r.value.letter == [line[0]] && OptionContent(line, r.value.content)
  {
    if |line| >= 2 && IsLabel(line[0]) && line[1] == '.' then
      var k := SkipWhitespace(line, 2);
      var content := TakeLine(line[k..]);
      assert AllWhitespace(line[2..k]);
      Some(Option([line[0]], content))
    else None
  }

  /** `A. text`: the whitespace after the dot is skipped. */
  lemma SpacedOptionLine()
    ensures ParseOptionLine("B. 4") == Some(Option("B", "4"))
  {
    var b := "B. 4";
    assert SkipWhitespace(b, 2) == 3 by {
      assert IsWhitespace(b[2]) && !IsWhitespace(b[3]);
    }
    assert b[3..] == "4";
    TakeLineWhole("4");
  }

  /** `A.text`: no whitespace is needed after the dot. */
  lemma UnspacedOptionLine()
    ensures ParseOptionLine("C.42") == Some(Option("C", "42"))
  {
    var c := "C.42";
    assert SkipWhitespace(c, 2) == 2 by {
      assert !IsWhitespace(c[2]);
    }
    assert c[2..] == "42";
    TakeLineWhole("42");
  }

  /** A letter outside `A`-`D`, or a missing dot, gives no option. */
  lemma NonOptionLines()
    ensures ParseOptionLine("E. 5") == None
    ensures ParseOptionLine("A 5") == None
  {
  }

  /** The options one line contributes: its option, or nothing. */
  function OptionsOf(line: string): (r: seq<Option>)
    ensures ParseOptionLine(line).Some? ==> r == [ParseOptionLine(line).value]
    ensures ParseOptionLine(line).None? ==> r == []
    ensures Labelled(r)
  {
    match ParseOptionLine(line)
    case Some(o) => [o]
    case None => []
  }

  /** The options of a question: the option lines that parse, in line order. */
  function ParseOptions(lines: seq<string>): (r: seq<Option>)
    ensures |r| <= |lines|
    ensures Labelled(r)
  {
    if lines == [] then []
    else
      var h, tl := OptionsOf(lines[0]), ParseOptions(lines[1..]);
      LabelledAppend(h, tl);
      h + tl
  }

  /** An option is kept exactly when some line parses to it. */
  lemma {:induction false} ParseOptionsMembers(lines: seq<string>, o: Option)
    ensures o in ParseOptions(lines) <==> exists l :: l in lines && ParseOptionLine(l) == Some(o)
  {
    if lines != [] {
      var tl := lines[1..];
      ParseOptionsStep(lines);
      ParseOptionsMembers(tl, o);
      if exists l :: l in lines && ParseOptionLine(l) == Some(o) {
        var l :| l in lines && ParseOptionLine(l) == Some(o);
        if l != lines[0] { assert l in tl; }
      }
      if exists l :: l in tl && ParseOptionLine(l) == Some(o) {
        var l :| l in tl && ParseOptionLine(l) == Some(o);
        assert l in lines;
      }
    }
  }

  /** Every option carries one of the labels `A`-`D`. */
  predicate Labelled(opts: seq<Option>) {
    forall i :: 0 <= i < |opts| ==> IsLabelString(opts[i].letter)
  }

  lemma LabelledAppend(a: seq<Option>, b: seq<Option>)
    requires Labelled(a) && Labelled(b)
    ensures Labelled(a + b)
  {
    forall i | 0 <= i < |a + b| ensures IsLabelString((a + b)[i].letter) {
      if i >= |a| { assert (a + b)[i] == b[i - |a|]; }
    }
  }

  /** Options keep line order: the options of consecutive stretches of lines are concatenated. */
  lemma {:induction false} ParseOptionsAppend(a: seq<string>, b: seq<string>)
    ensures ParseOptions(a + b) == ParseOptions(a) + ParseOptions(b)
  {
    if a == [] {
      assert a + b == b;
    } else {
      ParseOptionsConsAppend(a, b);
      ParseOptionsAppend(a[1..], b);
      ParseOptionsStep(a);
      AppendAssoc(OptionsOf(a[0]), ParseOptions(a[1..]), ParseOptions(b));
    }
  }

  /** Unfolding ParseOptions on `a + b` when `a` has a first line. */
  lemma ParseOptionsConsAppend(a: seq<string>, b: seq<string>)
    requires a != []
    ensures ParseOptions(a + b) == OptionsOf(a[0]) + ParseOptions(a[1..] + b)
  {
    var ab := a + b;
    assert ab[0] == a[0] && ab[1..] == a[1..] + b;
    ParseOptionsStep(ab);
  }

  /** One unfolding of ParseOptions. */
  lemma ParseOptionsStep(lines: seq<string>)
    requires lines != []
    ensures ParseOptions(lines) == OptionsOf(lines[0]) + ParseOptions(lines[1..])
  {
  }

  // ---------------------------------------------------------------------------
  // One block, all blocks, the whole document
  // ---------------------------------------------------------------------------

  /**
    Parses the block with 0-based position `index` among all blocks. A block
    becomes a question when both the prompt and the answer regex match; the
    options are then read from the text between the two matches.
   */
  function ParseBlock(block: string, index: nat): (r: Maybe<Question>)
    ensures r.Some? ==> r.value.id == index + 1
    ensures r.Some? ==> IsLabelString(r.value.correctAnswer)
    ensures r.Some? ==> !Contains(r.value.text, Bold)
    ensures r.Some? ==> Labelled(r.value.options)
  {
    var s := QuestionWord + block;
    match FindPromptFrom(s, 0)
    case None => None
    case Some(pm) =>
      match FindAnswerFrom(s, 0)
      case None => None
      case Some(am) => Some(BuildQuestion(s, index, pm.start, pm.colon, pm.close, am.start, am.letterAt))
  }

  /**
    The question assembled from a prompt match (start `p0`, colon `j`, closing
    `**` at `k`) and an answer match (start `p`, letter at `q`).
   */
  function BuildQuestion(s: string, index: nat, p0: nat, j: nat, k: nat, p: nat, q: nat): (r: Question)
    requires PromptAt(s, p0, j, k) && AnswerAt(s, p, q)
    ensures r.id == index + 1 && r.correctAnswer == [s[q]] && IsLabelString(r.correctAnswer)
    ensures !Contains(r.text, Bold)
    ensures Labelled(r.options)
  {
    PromptHasNoBold(s, p0, j, k);
    Question(index + 1, Trim(s[j + 1..k]), ParseOptions(OptionLines(Substring(s, k + |Bold|, p))), [s[q]])
  }

  /** A block is kept exactly when it has a colon followed by `**` and a well-formed answer marker. */
  lemma BlockAcceptance(block: string, index: nat)
    ensures ParseBlock(block, index).Some? <==> HasPromptShape(block) && HasAnswer(QuestionWord + block)
  {
    PromptAtBlockStart(block);
    PromptShape(block);
  }

  /**
    The fields of an accepted block, in terms of the matches themselves: the
    prompt is the trimmed text between the first colon and the next `**`, the
    correct answer is the letter of the leftmost answer marker, and the
    options come from the text between the end of the prompt match and the
    start of the answer marker.
   */
  lemma BlockFields(block: string, index: nat, j: nat, k: nat, p: nat, q: nat)
    requires PromptAt(QuestionWord + block, 0, j, k)
    requires AnswerAt(QuestionWord + block, p, q)
    requires forall p', q' :: 0 <= p' < p ==> !AnswerAt(QuestionWord + block, p', q')
    ensures k + |Bold| <= |QuestionWord + block|
    ensures ParseBlock(block, index) == Some(Question(
              index + 1,
              Trim((QuestionWord + block)[j + 1..k]),
              ParseOptions(OptionLines(Substring(QuestionWord + block, k + |Bold|, p))),
              [(QuestionWord + block)[q]]))
  {
    BlockBuilt(block, index, j, k, p, q);
  }

  /** The matches of BlockFields are the ones ParseBlock finds, so it builds from them. */
  lemma BlockBuilt(block: string, index: nat, j: nat, k: nat, p: nat, q: nat)
    requires PromptAt(QuestionWord + block, 0, j, k)
    requires AnswerAt(QuestionWord + block, p, q)
    requires forall p', q' :: 0 <= p' < p ==> !AnswerAt(QuestionWord + block, p', q')
    ensures ParseBlock(block, index) == Some(BuildQuestion(QuestionWord + block, index, 0, j, k, p, q))
  {
    PromptFound(block, j, k);
    AnswerFound(QuestionWord + block, p, q);
  }

  /** On a block, a prompt match at offset 0 is what the prompt search finds. */
  lemma PromptFound(block: string, j: nat, k: nat)
    requires PromptAt(QuestionWord + block, 0, j, k)
    ensures FindPromptFrom(QuestionWord + block, 0) == Some(PromptMatch(0, j, k))
  {
    var s := QuestionWord + block;
    PromptAtBlockStart(block);
    var pm := PromptMatchAt(s, 0).value;
    PromptUnique(s, 0, pm.colon, pm.close, j, k);
  }

  /** The leftmost answer match is what the answer search finds. */
  lemma AnswerFound(s: string, p: nat, q: nat)
    requires AnswerAt(s, p, q)
    requires forall p', q' :: 0 <= p' < p ==> !AnswerAt(s, p', q')
    ensures FindAnswerFrom(s, 0) == Some(AnswerMatch(p, q))
  {
    var am := FindAnswerFrom(s, 0).value;
    AnswerUnique(s, p, am.letterAt, q);
  }

  /** The prompt match at a given start is unique. */
  lemma PromptUnique(s: string, p: int, j: int, k: int, j': int, k': int)
    requires PromptAt(s, p, j, k) && PromptAt(s, p, j', k')
    ensures j == j' && k == k'
  {
  }

  /** The answer match at a given start is unique. */
  lemma AnswerUnique(s: string, p: int, q: int, q': int)
    requires AnswerAt(s, p, q) && AnswerAt(s, p, q')
    ensures q == q'
  {
  }

  /** What became of each block: `Some(question)` if it was accepted, `None` if it was dropped. */
  function BlockOutcomes(blocks: seq<string>): (r: seq<Maybe<Question>>)
    ensures |r| == |blocks|
    ensures forall i :: 0 <= i < |r| ==> r[i] == ParseBlock(blocks[i], i)
  {
    seq(|blocks|, i requires 0 <= i < |blocks| => ParseBlock(blocks[i], i))
  }

  /** The outcome at position `i` carries the id `base + i + 1`. */
  ghost predicate NumberedFrom(outcomes: seq<Maybe<Question>>, base: int) {
    forall i :: 0 <= i < |outcomes| && outcomes[i].Some? ==> outcomes[i].value.id == base + i + 1
  }

  /** The `questions.push` of the block loop: the accepted questions, in block order. */
  function Accepted(outcomes: seq<Maybe<Question>>): (r: seq<Question>)
    ensures |r| <= |outcomes|
    ensures forall q :: q in r ==> Some(q) in outcomes
    ensures forall i :: 0 <= i < |outcomes| && outcomes[i].Some? ==> outcomes[i].value in r
  {
    if outcomes == [] then []
    else (match outcomes[0] case Some(q) => [q] case None => []) + Accepted(outcomes[1..])
  }

  /** Question ids strictly increase along the sequence. */
  ghost predicate IdsIncreasing(qs: seq<Question>) {
    forall i, j :: 0 <= i < j < |qs| ==> qs[i].id < qs[j].id
  }

  /** Each question's id leads back to the outcome it came from. */
  ghost predicate IdsPointBack(qs: seq<Question>, outcomes: seq<Maybe<Question>>, base: int) {
    forall i :: 0 <= i < |qs| ==>
      base < qs[i].id <= base + |outcomes| && outcomes[qs[i].id - base - 1] == Some(qs[i])
  }

  /** Dropping the first outcome shifts the numbering by one. */
  lemma NumberedTail(outcomes: seq<Maybe<Question>>, base: int)
    requires NumberedFrom(outcomes, base) && |outcomes| > 0
    ensures NumberedFrom(outcomes[1..], base + 1)
  {
    var tail := outcomes[1..];
    forall i | 0 <= i < |tail| && tail[i].Some? ensures tail[i].value.id == base + 1 + i + 1 {
      assert tail[i] == outcomes[i + 1];
    }
  }

  /** Ids that point back into the tail point back into the whole sequence. */
  lemma PointBackTail(qs: seq<Question>, outcomes: seq<Maybe<Question>>, base: int)
    requires |outcomes| > 0 && IdsPointBack(qs, outcomes[1..], base + 1)
    ensures IdsPointBack(qs, outcomes, base)
  {
    forall i | 0 <= i < |qs|
      ensures base < qs[i].id <= base + |outcomes| && outcomes[qs[i].id - base - 1] == Some(qs[i])
    {
      assert outcomes[qs[i].id - base - 1] == outcomes[1..][qs[i].id - (base + 1) - 1];
    }
  }

  /** Putting the first block's question in front keeps both id properties. */
  lemma ConsIds(h: Question, rt: seq<Question>, outcomes: seq<Maybe<Question>>, base: int)
    requires |outcomes| > 0 && outcomes[0] == Some(h) && h.id == base + 1
    requires IdsIncreasing(rt) && IdsPointBack(rt, outcomes, base)
    requires forall i :: 0 <= i < |rt| ==> base + 1 < rt[i].id
    ensures IdsIncreasing([h] + rt) && IdsPointBack([h] + rt, outcomes, base)
  {
    var r := [h] + rt;
    forall i | 0 <= i < |r| ensures base < r[i].id <= base + |outcomes| && outcomes[r[i].id - base - 1] == Some(r[i]) {
      if i > 0 { assert r[i] == rt[i - 1]; }
    }
    forall i, j | 0 <= i < j < |r| ensures r[i].id < r[j].id {
      assert r[j] == rt[j - 1];
      if i > 0 { assert r[i] == rt[i - 1]; }
    }
  }

  /**
    Numbering questions by block position makes their ids strictly
    increasing, and each id leads back to the block it came from.
   */
  lemma {:induction false} AcceptedIds(outcomes: seq<Maybe<Question>>, base: int)
    requires NumberedFrom(outcomes, base)
    ensures IdsIncreasing(Accepted(outcomes))
    ensures IdsPointBack(Accepted(outcomes), outcomes, base)
    decreases |outcomes|
  {
    if outcomes != [] {
      var tail := outcomes[1..];
      NumberedTail(outcomes, base);
      AcceptedIds(tail, base + 1);
      var rt := Accepted(tail);
      PointBackTail(rt, outcomes, base);
      match outcomes[0]
      case None =>
        assert Accepted(outcomes) == rt;
      case Some(h) =>
        assert Accepted(outcomes) == [h] + rt;
        ConsIds(h, rt, outcomes, base);
    }
  }

  /**
    `parseQuizFile(content, fileName)`. The quiz id, `Date.now().toString()`
    in the source, is the parameter `id`; everything else depends only on
    the content and the file name.
   */
  function ParseQuizFile(content: string, fileName: string, id: string): (r: Quiz)
    ensures r.id == id && r.fileName == fileName
    ensures r.title == ExtractTitle(content, fileName)
    ensures |r.questions| <= Occurrences(content, QuestionMarker)
    ensures !Contains(content, QuestionMarker) ==> r.questions == []
    ensures forall i :: 0 <= i < |r.questions| ==> r.questions[i].id >= 1
    ensures forall i, j :: 0 <= i < j < |r.questions| ==> r.questions[i].id < r.questions[j].id
    ensures forall q :: q in r.questions ==>
              && IsLabelString(q.correctAnswer)
              && !Contains(q.text, Bold)
              && Labelled(q.options)
  {
    var outcomes := BlockOutcomes(QuestionBlocks(content));
    AcceptedIds(outcomes, 0);
    Quiz(id, ExtractTitle(content, fileName), Accepted(outcomes), fileName)
  }

  /**
    The questions are exactly the accepted blocks: question `q` comes from
    block `q.id - 1` (counting every block after the header), and every block
    that parses appears among the questions.
   */
  lemma QuestionsAreAcceptedBlocks(content: string, fileName: string, id: string)
    ensures var blocks := QuestionBlocks(content);
            var questions := ParseQuizFile(content, fileName, id).questions;
            && (forall q :: q in questions ==> 1 <= q.id <= |blocks| && ParseBlock(blocks[q.id - 1], q.id - 1) == Some(q))
            && (forall k :: 0 <= k < |blocks| && ParseBlock(blocks[k], k).Some? ==> ParseBlock(blocks[k], k).value in questions)
  {
    var blocks := QuestionBlocks(content);
    var outcomes := BlockOutcomes(blocks);
    AcceptedIds(outcomes, 0);
  }

  /** An empty document gives no questions and the fallback title; it is not an error. */
  lemma EmptyDocument(fileName: string, id: string)
    ensures ParseQuizFile("", fileName, id).questions == []
    ensures ParseQuizFile("", fileName, id).title == ReplaceFirst(fileName, FileExtension, "")
  {
  }

  /** Only the quiz id comes from the clock: title and questions depend on content and file name alone. */
  lemma IdOnlyFromClock(content: string, fileName: string, id1: string, id2: string)
    ensures ParseQuizFile(content, fileName, id1).title == ParseQuizFile(content, fileName, id2).title
    ensures ParseQuizFile(content, fileName, id1).questions == ParseQuizFile(content, fileName, id2).questions
  {
  }

  /**
    Ids count rejected blocks too: when the first block is dropped and the
    second is kept, the first question of the quiz is numbered 2, not 1.
   */
  lemma RejectedBlockLeavesGap(content: string, fileName: string, id: string)
    requires |QuestionBlocks(content)| >= 2
    requires ParseBlock(QuestionBlocks(content)[0], 0).None?
    requires ParseBlock(QuestionBlocks(content)[1], 1).Some?
    ensures |ParseQuizFile(content, fileName, id).questions| >= 1
    ensures ParseQuizFile(content, fileName, id).questions[0].id == 2
  {
    var outcomes := BlockOutcomes(QuestionBlocks(content));
    assert ParseQuizFile(content, fileName, id).questions == Accepted(outcomes);
    GapAfterDropped(outcomes);
  }

  /** The same at the level of block outcomes: a dropped first block leaves id 1 unused. */
  lemma GapAfterDropped(outcomes: seq<Maybe<Question>>)
    requires NumberedFrom(outcomes, 0)
    requires |outcomes| >= 2 && outcomes[0].None? && outcomes[1].Some?
    ensures |Accepted(outcomes)| >= 1 && Accepted(outcomes)[0].id == 2
  {
    var tail := outcomes[1..];
    assert Accepted(outcomes) == Accepted(tail);
    assert tail[0] == outcomes[1];
    assert Accepted(tail) == [outcomes[1].value] + Accepted(tail[1..]);
  }

  /** The block of a question with a prompt and an answer marker but no option lines. */
  const BareBlock: string := " 1: Q**\n" + AnswerMarker + " A**"

  /** The characters of `Câu` + BareBlock that the matches below rely on. */
  lemma BareBlockChars(s: string)
    requires s == QuestionWord + BareBlock
    ensures |s| == 29
    ensures s[3] == ' ' && s[4] == '1' && s[5] == ':' && s[6] == ' ' && s[7] == 'Q'
    ensures s[8] == '*' && s[9] == '*' && s[10] == '\n'
    ensures s[25] == ' ' && s[26] == 'A' && s[27] == '*' && s[28] == '*'
    ensures forall i :: 0 <= i < 13 ==> s[i] != AnswerMarker[2]
  {
  }

  /** In `Câu` + BareBlock the prompt regex matches with its colon at 5 and its closing `**` at 8. */
  lemma BarePrompt(s: string)
    requires s == QuestionWord + BareBlock
    ensures PromptAt(s, 0, 5, 8) && s[6..8] == " Q"
    ensures Substring(s, 10, 11) == Newline
  {
    BareBlockChars(s);
    assert s[0..3] == QuestionWord && s[5..6] == Colon && s[8..10] == Bold;
  }

  /** In `Câu` + BareBlock the leftmost answer match starts at 11, with the letter `A` at 26. */
  lemma BareAnswer(s: string)
    requires s == QuestionWord + BareBlock
    ensures AnswerAt(s, 11, 26) && s[26] == 'A'
    ensures forall p', q' :: 0 <= p' < 11 ==> !AnswerAt(s, p', q')
  {
    BareBlockChars(s);
    HasAtJoin(QuestionWord + " 1: Q**\n", AnswerMarker, " A**");
    assert s == QuestionWord + " 1: Q**\n" + AnswerMarker + " A**";
    assert s[27..29] == Bold;
  }

  /** A lone line break holds no option lines. */
  lemma NoOptionLines()
    ensures OptionLines(Newline) == []
  {
    SplitStep(Newline, Newline, 0);
    SplitAbsent("", Newline);
    assert Split(Newline, Newline) == ["", ""];
    assert Trim("") == "";
    assert TrimNonEmpty([""]) == [] by {
      assert [""][1..] == [];
    }
    assert ["", ""][1..] == [""];
  }

  /**
    A block without options is still a question, so its answer names no
    option of its own: the options are never checked against the answer.
   */
  lemma KeptWithoutOptions()
    ensures ParseBlock(BareBlock, 0) == Some(Question(1, "Q", [], "A"))
  {
    var s := QuestionWord + BareBlock;
    BarePrompt(s);
    BareAnswer(s);
    BlockFields(BareBlock, 0, 5, 8, 11, 26);
    TrimmedPrompt();
    NoOptionLines();
  }

  /** The prompt of BareBlock, ` Q`, trims to `Q`. */
  lemma TrimmedPrompt()
    ensures Trim(" Q") == "Q"
  {
    assert " Q" == " " + "Q" + "";
    TrimUnique(" ", "Q", "");
  }

  /**
    A block with no colon before its answer marker, neither in the question
    line nor in an option line: the first colon after `Câu` is the answer
    marker's own, so the prompt runs on into the answer line and ends at the
    `**` after the letter. The options are then read between
    that `**` and the answer marker, which lies before it: the bounds are
    swapped and the region is the answer line itself.
   */
  const FoldedBlock: string := " 1\n" + AnswerMarker + " B**"

  /** The characters of `Câu` + FoldedBlock that the matches below rely on. */
  lemma FoldedBlockChars(s: string)
    requires s == QuestionWord + FoldedBlock
    ensures |s| == 24
    ensures s[3] == ' ' && s[4] == '1' && s[5] == '\n'
    ensures s[19] == ':' && s[20] == ' ' && s[21] == 'B' && s[22] == '*' && s[23] == '*'
    ensures forall i :: 3 <= i < 19 ==> s[i] != ':'
    ensures forall i :: 0 <= i < 8 ==> s[i] != AnswerMarker[2]
  {
  }

  /** In `Câu` + FoldedBlock the prompt's colon is the answer marker's, at 19, and its `**` at 22. */
  lemma FoldedPrompt(s: string)
    requires s == QuestionWord + FoldedBlock
    ensures PromptAt(s, 0, 19, 22) && s[20..22] == " B"
  {
    FoldedBlockChars(s);
    assert s[0..3] == QuestionWord && s[19..20] == Colon && s[22..24] == Bold;
    forall i | 3 <= i < 19 ensures !HasAt(s, i, Colon) {
      assert s[i..i + 1][0] == s[i];
    }
  }

  /** In `Câu` + FoldedBlock the leftmost answer match starts at 6, with the letter `B` at 21. */
  lemma FoldedAnswer(s: string)
    requires s == QuestionWord + FoldedBlock
    ensures AnswerAt(s, 6, 21) && s[21] == 'B'
    ensures forall p', q' :: 0 <= p' < 6 ==> !AnswerAt(s, p', q')
  {
    FoldedBlockChars(s);
    HasAtJoin(QuestionWord + " 1\n", AnswerMarker, " B**");
    assert s == QuestionWord + " 1\n" + AnswerMarker + " B**";
    assert s[22..24] == Bold;
  }

  /** A single line that starts and ends with `*` parses to no option: `*` is not a label. */
  lemma StarLineNoOptions(line: string)
    requires |line| > 0 && line[0] == '*' && line[|line| - 1] == '*'
    requires forall i :: 0 <= i < |line| ==> line[i] != '\n'
    ensures ParseOptions(OptionLines(line)) == []
  {
    assert !Contains(line, Newline) by {
      forall p | 0 <= p < |line| ensures !HasAt(line, p, Newline) {
        assert line[p..p + 1][0] == line[p];
      }
    }
    SplitAbsent(line, Newline);
    assert "" + line + "" == line;
    TrimUnique("", line, "");
    TrimNonEmptyStep([line]);
    assert [line][1..] == [];
    ParseOptionsStep([line]);
  }

  /**
    The folded block is kept, its prompt is the answer letter, and its
    options come from the swapped region, which holds none.
   */
  lemma AnswerInsidePrompt()
    ensures ParseBlock(FoldedBlock, 0) == Some(Question(1, "B", [], "B"))
  {
    var s := QuestionWord + FoldedBlock;
    FoldedPrompt(s);
    FoldedAnswer(s);
    BlockFields(FoldedBlock, 0, 19, 22, 6, 21);
    FoldedRegion(s);
    TrimmedLetter();
  }

  /** The swapped region of `Câu` + FoldedBlock is the answer line, which holds no option. */
  lemma FoldedRegion(s: string)
    requires s == QuestionWord + FoldedBlock
    ensures ParseOptions(OptionLines(Substring(s, 24, 6))) == []
  {
    var line := Substring(s, 24, 6);
    assert line == AnswerMarker + " B**";
    assert |line| == 18 && line[0] == '*' && line[17] == '*';
    assert forall i :: 0 <= i < |line| ==> line[i] != '\n';
    StarLineNoOptions(line);
  }

  /** The prompt of FoldedBlock, ` B`, trims to `B`. */
  lemma TrimmedLetter()
    ensures Trim(" B") == "B"
  {
    assert " B" == " " + "B" + "";
    TrimUnique(" ", "B", "");
  }
}

=== FILE: player.dfy ===
/**
  The quiz session of components/QuizPlayer.tsx as a state machine: the
  component's state, its three handlers, the highlight classifier for the
  options, and the footer gating that decides which handler a press reaches.
  Rendering is left out; the explanation request is reduced to its effect on
  the state, with the returned text as a parameter.
 */
module Player {
  import opened Maybe
  import opened Types

  /** The component state: question position, chosen label, submitted flag, score, explanation. */
  datatype Session = Session(
    currentIndex: int,
    selectedOption: Maybe<string>,
    isSubmitted: bool,
    score: int,
    explanation: Maybe<string>)

  /** The state a freshly mounted player starts in. */
  function Start(): Session {
    Session(0, None, false, 0, None)
  }

  /** JavaScript truthiness of a nullable string: `null` and `""` are falsy. */
  predicate Truthy(v: Maybe<string>) {
    v.Some? && v.value != ""
  }

  /** The component can read its current question: the index names one of the quiz's questions. */
  predicate Valid(s: Session, quiz: Quiz) {
    0 <= s.currentIndex < |quiz.questions|
  }

  /** `quiz.questions[currentIndex]`. */
  function Current(s: Session, quiz: Quiz): Question
    requires Valid(s, quiz)
  {
    quiz.questions[s.currentIndex]
  }

  /** What `onFinish` reports: the score and the number of questions. */
  datatype Report = Report(score: int, total: int)

  /** The state after a handler, and the report when the handler ended the quiz. */
  datatype Outcome = Outcome(session: Session, finish: Maybe<Report>)

  /** `handleSelect`: ignored once the answer is submitted, otherwise records the label. */
  function HandleSelect(s: Session, optionLabel: string): (r: Session)
    ensures s.isSubmitted ==> r == s
    ensures !s.isSubmitted ==> r.selectedOption == Some(optionLabel)
    ensures r.currentIndex == s.currentIndex && r.isSubmitted == s.isSubmitted
    ensures r.score == s.score && r.explanation == s.explanation
  {
    if s.isSubmitted then s else s.(selectedOption := Some(optionLabel))
  }

  /**
    `handleSubmit`: without a (truthy) selection nothing happens; otherwise the
    answer is marked submitted and the score goes up by one exactly when the
    selection is the question's correct answer.
   */
  function HandleSubmit(s: Session, quiz: Quiz): (r: Session)
    requires Truthy(s.selectedOption) ==> Valid(s, quiz)
    ensures !Truthy(s.selectedOption) ==> r == s
    ensures Truthy(s.selectedOption) ==> r.isSubmitted
    ensures Truthy(s.selectedOption) ==>
              r.score == s.score + (if s.selectedOption.value == Current(s, quiz).correctAnswer then 1 else 0)
    ensures r.currentIndex == s.currentIndex && r.selectedOption == s.selectedOption && r.explanation == s.explanation
    ensures s.score <= r.score <= s.score + 1
  {
    if !Truthy(s.selectedOption) then s
    else
      var gained := if s.selectedOption.value == Current(s, quiz).correctAnswer then 1 else 0;
      s.(isSubmitted := true, score := s.score + gained)
  }

  /**
    `handleNext`: before the last question, move on and clear the selection,
    the submitted flag and the explanation; on the last question, leave the
    state alone and report the score (the added conditional term is 0 either way).
   */
  function HandleNext(s: Session, quiz: Quiz): (r: Outcome)
    requires s.currentIndex < |quiz.questions| - 1 || Valid(s, quiz)
    ensures s.currentIndex < |quiz.questions| - 1 ==>
              && r.finish.None?
              && r.session.currentIndex == s.currentIndex + 1
              && r.session.selectedOption.None?
              && !r.session.isSubmitted
              && r.session.explanation.None?
              && r.session.score == s.score
    ensures s.currentIndex >= |quiz.questions| - 1 ==>
              r.session == s && r.finish == Some(Report(s.score, |quiz.questions|))
  {
    if s.currentIndex < |quiz.questions| - 1 then
      Outcome(s.(currentIndex := s.currentIndex + 1, selectedOption := None, isSubmitted := false, explanation := None), None)
    else
      var bonus := if s.selectedOption == Some(Current(s, quiz).correctAnswer) then 0 else 0;
      Outcome(s, Some(Report(s.score + bonus, |quiz.questions|)))
  }

  /** The result of the explanation request, with the text as a parameter. */
  function ReceiveExplanation(s: Session, text: string): (r: Session)
    ensures r.explanation == Some(text)
    ensures r.currentIndex == s.currentIndex && r.selectedOption == s.selectedOption
    ensures r.isSubmitted == s.isSubmitted && r.score == s.score
  {
    s.(explanation := Some(text))
  }

  /** How `getOptionClass` highlights an option. */
  datatype OptionClass =
    | Selected  // chosen, not yet submitted
    | Neutral   // not chosen, not yet submitted
    | Correct   // after submit: the correct answer
    | Wrong     // after submit: chosen but not correct
    | Dimmed    // after submit: neither

  /** `getOptionClass(optionLabel)` for the current question `current`. */
  function GetOptionClass(s: Session, current: Question, optionLabel: string): (c: OptionClass)
    ensures !s.isSubmitted ==> (c == Selected <==> s.selectedOption == Some(optionLabel)) && (c == Selected || c == Neutral)
    ensures s.isSubmitted ==> (c == Correct <==> optionLabel == current.correctAnswer)
    ensures s.isSubmitted ==> (c == Wrong <==> optionLabel != current.correctAnswer && s.selectedOption == Some(optionLabel))
    ensures s.isSubmitted ==> c != Selected && c != Neutral
  {
    if !s.isSubmitted then
      (if s.selectedOption == Some(optionLabel) then Selected else Neutral)
    else if optionLabel == current.correctAnswer then Correct
    else if s.selectedOption == Some(optionLabel) && optionLabel != current.correctAnswer then Wrong
    else Dimmed
  }

  /**
    After a submit, the highlight of the chosen option agrees with the score:
    it is Correct exactly when the score went up, and Wrong exactly when it did not.
   */
  lemma HighlightAgreesWithScore(s: Session, quiz: Quiz)
    requires !s.isSubmitted && Truthy(s.selectedOption) && Valid(s, quiz)
    ensures var r := HandleSubmit(s, quiz);
            var c := GetOptionClass(r, Current(s, quiz), s.selectedOption.value);
            && (c == Correct <==> r.score == s.score + 1)
            && (c == Wrong <==> r.score == s.score)
  {
  }

  /** After submit, at most one option of the question is marked Wrong. */
  lemma AtMostOneWrong(s: Session, current: Question, a: string, b: string)
    requires s.isSubmitted
    requires GetOptionClass(s, current, a) == Wrong && GetOptionClass(s, current, b) == Wrong
    ensures a == b
  {
  }

  // ---------------------------------------------------------------------------
  // The rendered component: which handler each user action reaches
  // ---------------------------------------------------------------------------

  /** A user action: clicking an option, pressing the footer button, or an explanation arriving. */
  datatype Event = Select(optionLabel: string) | Press | Explain(text: string)

  /**
    The actions the rendered component can deliver: a click on one of the
    current question's options; the footer button, which is the submit button
    (disabled without a selection) before submitting and the next button after;
    and the explanation, offered only once submitted and while none is shown.
   */
  predicate Enabled(s: Session, quiz: Quiz, e: Event)
    requires Valid(s, quiz)
  {
    match e
    case Select(optionLabel) => exists o :: o in Current(s, quiz).options && o.letter == optionLabel
    case Press => s.isSubmitted || Truthy(s.selectedOption)
    case Explain(_) => s.isSubmitted && !Truthy(s.explanation)
  }

  /**
    Delivers one action to the handler it reaches: a click to `handleSelect`,
    the footer button to `handleSubmit` before submitting and to `handleNext`
    after, and an explanation to its state update. Only the next button on
    the last question ends the quiz.
   */
  function Step(s: Session, quiz: Quiz, e: Event): (r: Outcome)
    requires Valid(s, quiz)
    ensures r.session.score >= s.score
    ensures r.finish.Some? <==> e.Press? && s.isSubmitted && s.currentIndex == |quiz.questions| - 1
    ensures r.finish.Some? ==> r.session == s && r.finish.value == Report(s.score, |quiz.questions|)
    ensures e.Press? && s.isSubmitted && s.currentIndex < |quiz.questions| - 1 ==>
              && r.session.currentIndex == s.currentIndex + 1
              && !r.session.isSubmitted && r.session.selectedOption.None? && r.session.explanation.None?
              && r.session.score == s.score
    ensures e.Press? && !s.isSubmitted && !Truthy(s.selectedOption) ==> r.session == s
    ensures e.Press? && !s.isSubmitted && Truthy(s.selectedOption) ==>
              && r.session.isSubmitted
              && r.session.currentIndex == s.currentIndex && r.session.selectedOption == s.selectedOption
              && r.session.score == s.score + (if s.selectedOption.value == Current(s, quiz).correctAnswer then 1 else 0)
    ensures e.Select? && s.isSubmitted ==> r.session == s
    ensures e.Select? && !s.isSubmitted ==> r.session == s.(selectedOption := Some(e.optionLabel))
    ensures e.Explain? ==> r.session == s.(explanation := Some(e.text))
  {
    match e
    case Select(optionLabel) => Outcome(HandleSelect(s, optionLabel), None)
    case Press => if s.isSubmitted then HandleNext(s, quiz) else Outcome(HandleSubmit(s, quiz), None)
    case Explain(text) => Outcome(ReceiveExplanation(s, text), None)
  }

  /**
    The footer gating is exact: the button is offered precisely when pressing
    it would do something, that is, change the state or end the quiz.
   */
  lemma PressEnabledExactlyWhenEffective(s: Session, quiz: Quiz)
    requires Valid(s, quiz)
    ensures Enabled(s, quiz, Press) <==>
              Step(s, quiz, Press).session != s || Step(s, quiz, Press).finish.Some?
  {
  }

  /**
    The session invariant: the index names a question, and the score is at
    most the number of questions answered so far (the current one counts once
    it is submitted).
   */
  predicate Inv(s: Session, quiz: Quiz) {
    && Valid(s, quiz)
    && 0 <= s.score <= s.currentIndex + (if s.isSubmitted then 1 else 0)
  }

  /** A non-empty quiz starts in a state satisfying the invariant. */
  lemma StartInv(quiz: Quiz)
    requires |quiz.questions| > 0
    ensures Inv(Start(), quiz)
  {
  }

  /**
    Every action the component can deliver keeps the invariant, and a
    finished quiz reports a score between 0 and the number of questions.
   */
  lemma StepKeepsInv(s: Session, quiz: Quiz, e: Event)
    requires Inv(s, quiz) && Enabled(s, quiz, e)
    ensures Inv(Step(s, quiz, e).session, quiz)
    ensures Step(s, quiz, e).finish.Some? ==>
              var rep := Step(s, quiz, e).finish.value;
              0 <= rep.score <= rep.total == |quiz.questions|
  {
  }

  /** The index stays in bounds whatever the handlers are called in, gated or not. */
  lemma HandlersKeepIndexInBounds(s: Session, quiz: Quiz, optionLabel: string)
    requires Valid(s, quiz)
    ensures Valid(HandleSelect(s, optionLabel), quiz)
    ensures Valid(HandleSubmit(s, quiz), quiz)
    ensures Valid(HandleNext(s, quiz).session, quiz)
  {
  }

  /**
    The score bound relies on the footer gating: `handleSubmit` itself does
    not look at `isSubmitted`, so calling it twice on a correct selection
    scores the same question twice.
   */
  lemma UngatedSubmitScoresTwice(quiz: Quiz)
    requires |quiz.questions| > 0 && quiz.questions[0].correctAnswer != ""
    ensures var s := Start().(selectedOption := Some(quiz.questions[0].correctAnswer));
            var twice := HandleSubmit(HandleSubmit(s, quiz), quiz);
            twice.score == 2 && !Inv(twice, quiz)
  {
  }

  /**
    Runs the actions in order, skipping those the component could not deliver,
    until the quiz finishes or the actions run out.
   */
  method Play(quiz: Quiz, events: seq<Event>) returns (o: Outcome)
    requires |quiz.questions| > 0
    ensures o.finish.None? ==> Inv(o.session, quiz)
    ensures o.finish.None? ==> 0 <= o.session.score <= o.session.currentIndex + 1 <= |quiz.questions|
    ensures o.finish.Some? ==> 0 <= o.finish.value.score <= o.finish.value.total == |quiz.questions|
    ensures o.finish.Some? ==> o.session.isSubmitted && o.session.currentIndex == |quiz.questions| - 1
  {
    var s := Start();
    var i := 0;
    while i < |events|
      invariant 0 <= i <= |events|
      invariant Inv(s, quiz)
    {
      var e := events[i];
      if Enabled(s, quiz, e) {
        StepKeepsInv(s, quiz, e);
        var r := Step(s, quiz, e);
        if r.finish.Some? {
          return r;
        }
        s := r.session;
      }
      i := i + 1;
    }
    o := Outcome(s, None);
  }
}

=== FILE: text.dfy ===
/**
  String primitives the parser is built from, with JavaScript's meaning:
  literal search (`indexOf`), `split` on a literal separator, `trim`,
  `replace` of the first literal occurrence, and the character classes
  `\s` and "line terminator" that the regular expressions rely on.
 */
module Text {
  import opened Maybe

  /** The characters JavaScript's `.` refuses to match unless the `s` flag is set. */
  predicate IsLineTerminator(c: char) {
    c == '\n' || c == '\r' || c == '\U{2028}' || c == '\U{2029}'
  }

  /** JavaScript's `\s`, which is also the set `String.prototype.trim` removes. */
  predicate IsWhitespace(c: char) {
    || IsLineTerminator(c)
    || c == '\t' || c == '\U{000B}' || c == '\U{000C}' || c == ' '
    || c == '\U{00A0}' || c == '\U{1680}' || ('\U{2000}' <= c <= '\U{200A}')
    || c == '\U{202F}' || c == '\U{205F}' || c == '\U{3000}' || c == '\U{FEFF}'
  }

  /** `pat` occurs in `s` starting at index `p`. */
  predicate HasAt(s: string, p: int, pat: string) {
    0 <= p && p + |pat| <= |s| && s[p..p + |pat|] == pat
  }

  /** `pat` occurs somewhere in `s`. */
  predicate Contains(s: string, pat: string) {
    exists p | 0 <= p <= |s| :: HasAt(s, p, pat)
  }

  /** A pattern written between two strings occurs right after the first. */
  lemma HasAtJoin(a: string, pat: string, b: string)
    ensures HasAt(a + pat + b, |a|, pat)
  {
    assert (a + pat + b)[|a|..|a| + |pat|] == pat;
  }

  /** An occurrence inside a slice is an occurrence in the whole string, shifted. */
  lemma HasAtSlice(s: string, lo: int, hi: int, p: int, pat: string)
    requires 0 <= lo <= hi <= |s|
    requires HasAt(s[lo..hi], p, pat)
    ensures HasAt(s, lo + p, pat) && lo + p + |pat| <= hi
  {
    var a, b := s[lo..hi][p..p + |pat|], s[lo + p..lo + p + |pat|];
    forall k | 0 <= k < |pat| ensures a[k] == b[k] { }
    assert a == b;
  }

  /** The converse of HasAtSlice: an occurrence that lies within the slice is seen by it. */
  lemma HasAtInSlice(s: string, lo: int, hi: int, p: int, pat: string)
    requires 0 <= lo <= p && p + |pat| <= hi <= |s|
    requires HasAt(s, p, pat)
    ensures HasAt(s[lo..hi], p - lo, pat)
  {
    var a, b := s[lo..hi][p - lo..p - lo + |pat|], s[p..p + |pat|];
    forall k | 0 <= k < |pat| ensures a[k] == b[k] { }
    assert a == b;
  }

  /**
    The first occurrence of `pat` at or after `from`: the left-to-right search
    that `split`, `replace` and the three regular-expression searches share.
   */
  function IndexOfFrom(s: string, pat: string, from: nat): (r: Maybe<nat>)
    ensures r.Some? ==> from <= r.value && HasAt(s, r.value, pat)
    ensures r.Some? ==> forall q :: from <= q < r.value ==> !HasAt(s, q, pat)
    ensures r.None? ==> forall q :: from <= q ==> !HasAt(s, q, pat)
    decreases |s| - from
  {
    if HasAt(s, from, pat) then Some(from)
    else if from >= |s| then None
    else IndexOfFrom(s, pat, from + 1)
  }

  /** The first index at or after `i` whose character is not whitespace (`|s|` if none). */
  function SkipWhitespace(s: string, i: nat): (j: nat)
    requires i <= |s|
    ensures i <= j <= |s|
    ensures forall k :: i <= k < j ==> IsWhitespace(s[k])
    ensures j < |s| ==> !IsWhitespace(s[j])
    decreases |s| - i
  {
    if i < |s| && IsWhitespace(s[i]) then SkipWhitespace(s, i + 1) else i
  }

  /** Moves `hi` down past trailing whitespace, never below `lo`. */
  function TrimEndIndex(s: string, lo: nat, hi: nat): (j: nat)
    requires lo <= hi <= |s|
    ensures lo <= j <= hi
    ensures forall k :: j <= k < hi ==> IsWhitespace(s[k])
    ensures j > lo ==> !IsWhitespace(s[j - 1])
    decreases hi
  {
    if hi > lo && IsWhitespace(s[hi - 1]) then TrimEndIndex(s, lo, hi - 1) else hi
  }

  /** Every character of `s` is whitespace. */
  predicate AllWhitespace(s: string) {
    forall k :: 0 <= k < |s| ==> IsWhitespace(s[k])
  }

  /** `s.trim()`: the infix left after removing leading and trailing whitespace. */
  function Trim(s: string): (r: string)
    ensures exists i, j :: 0 <= i <= j <= |s| && r == s[i..j] && AllWhitespace(s[..i]) && AllWhitespace(s[j..])
    ensures |r| > 0 ==> !IsWhitespace(r[0]) && !IsWhitespace(r[|r| - 1])
  {
    var i := SkipWhitespace(s, 0);
    var j := TrimEndIndex(s, i, |s|);
    assert AllWhitespace(s[..i]);
    assert AllWhitespace(s[j..]);
    s[i..j]
  }

  /**
    Trim is determined by its contract: whatever is wrapped in whitespace on
    both sides and has non-whitespace ends is exactly what Trim returns.
   */
  lemma {:induction false} TrimUnique(w1: string, x: string, w2: string)
    requires AllWhitespace(w1) && AllWhitespace(w2)
    requires |x| > 0 ==> !IsWhitespace(x[0]) && !IsWhitespace(x[|x| - 1])
    ensures Trim(w1 + x + w2) == x
  {
    var s := w1 + x + w2;
    var i := SkipWhitespace(s, 0);
    var j := TrimEndIndex(s, i, |s|);
    if |x| > 0 {
      assert s[|w1|] == x[0];
      assert s[|w1| + |x| - 1] == x[|x| - 1];
      assert i == |w1|;
      assert j == |w1| + |x|;
      assert s[i..j] == x;
    } else {
      assert AllWhitespace(s);
      assert i == |s|;
      assert j == |s|;
    }
  }

  /** Trimming twice is trimming once. */
  lemma TrimIdempotent(s: string)
    ensures Trim(Trim(s)) == Trim(s)
  {
    var t := Trim(s);
    TrimUnique([], t, []);
    assert [] + t + [] == t;
  }

  /** Whatever does not occur in a string does not occur in its trimmed form. */
  lemma TrimKeepsAbsence(s: string, pat: string)
    requires !Contains(s, pat)
    ensures !Contains(Trim(s), pat)
  {
    var t := Trim(s);
    var i, j :| 0 <= i <= j <= |s| && t == s[i..j];
    if p :| HasAt(t, p, pat) {
      HasAtSlice(s, i, j, p, pat);
      assert false;
    }
  }

  /** `s.split(sep)` for a non-empty literal separator. */
  function Split(s: string, sep: string): (r: seq<string>)
    requires |sep| > 0
    ensures |r| >= 1
    decreases |s|
  {
    match IndexOfFrom(s, sep, 0)
    case None => [s]
    case Some(p) => [s[..p]] + Split(s[p + |sep|..], sep)
  }

  /** No piece of a split contains the separator. */
  lemma {:induction false} SplitPiecesFree(s: string, sep: string)
    requires |sep| > 0
    ensures forall i :: 0 <= i < |Split(s, sep)| ==> !Contains(Split(s, sep)[i], sep)
    decreases |s|
  {
    match IndexOfFrom(s, sep, 0)
    case None =>
    case Some(p) =>
      var head, rest := s[..p], s[p + |sep|..];
      SplitStep(s, sep, p);
      SplitPiecesFree(rest, sep);
      if q :| 0 <= q <= |head| && HasAt(head, q, sep) {
        HasAtSlice(s, 0, p, q, sep);
      }
  }

  /** `parts.join(sep)`: the inverse of Split. */
  function Join(parts: seq<string>, sep: string): string
    requires |parts| >= 1
    decreases |parts|
  {
    if |parts| == 1 then parts[0] else parts[0] + sep + Join(parts[1..], sep)
  }

  /** Splitting loses nothing: joining the pieces back gives the original text. */
  lemma {:induction false} SplitJoin(s: string, sep: string)
    requires |sep| > 0
    ensures Join(Split(s, sep), sep) == s
    decreases |s|
  {
    match IndexOfFrom(s, sep, 0)
    case None =>
    case Some(p) =>
      var rest := s[p + |sep|..];
      var tail := Split(rest, sep);
      SplitStep(s, sep, p);
      SplitJoin(rest, sep);
      assert s[p..p + |sep|] == sep;
      assert s == s[..p] + s[p..p + |sep|] + rest;
  }

  /** The number of indices at or after `i` where `pat` occurs (overlapping occurrences included). */
  function CountFrom(s: string, pat: string, i: nat): nat
    decreases |s| - i
  {
    if i > |s| then 0
    else (if HasAt(s, i, pat) then 1 else 0) + CountFrom(s, pat, i + 1)
  }

  /** The number of occurrences of `pat` in `s`. */
  function Occurrences(s: string, pat: string): nat {
    CountFrom(s, pat, 0)
  }

  lemma {:induction false} CountFromMonotone(s: string, pat: string, i: nat, j: nat)
    requires i <= j
    ensures CountFrom(s, pat, j) <= CountFrom(s, pat, i)
    decreases j - i
  {
    if i < j {
      CountFromMonotone(s, pat, i + 1, j);
    }
  }

  lemma {:induction false} CountFromNoneBefore(s: string, pat: string, i: nat, p: nat)
    requires i <= p
    requires forall q :: i <= q < p ==> !HasAt(s, q, pat)
    ensures CountFrom(s, pat, i) == CountFrom(s, pat, p)
    decreases p - i
  {
    if i < p {
      CountFromNoneBefore(s, pat, i + 1, p);
    }
  }

  /** Counting in a suffix is counting in the whole string from the suffix's start. */
  lemma {:induction false} CountFromSuffix(s: string, pat: string, d: nat, i: nat)
    requires d <= |s|
    ensures CountFrom(s[d..], pat, i) == CountFrom(s, pat, d + i)
    decreases |s| - d - i
  {
    if i <= |s[d..]| {
      assert s[d..] == s[d..|s|];
      assert HasAt(s[d..], i, pat) == HasAt(s, d + i, pat) by {
        if HasAt(s[d..], i, pat) {
          HasAtSlice(s, d, |s|, i, pat);
        }
        if HasAt(s, d + i, pat) {
          HasAtInSlice(s, d, |s|, d + i, pat);
        }
      }
      CountFromSuffix(s, pat, d, i + 1);
    }
  }

  /** Splitting yields at most one more piece than there are occurrences of the separator. */
  lemma {:induction false} SplitPieces(s: string, sep: string)
    requires |sep| > 0
    ensures |Split(s, sep)| <= Occurrences(s, sep) + 1
    decreases |s|
  {
    match IndexOfFrom(s, sep, 0)
    case None =>
    case Some(p) =>
      var rest := s[p + |sep|..];
      SplitStep(s, sep, p);
      CountStep(s, sep, p);
      SplitPieces(rest, sep);
  }

  /** Cutting at the first separator leaves one piece plus the pieces of the rest. */
  lemma SplitStep(s: string, sep: string, p: nat)
    requires |sep| > 0 && IndexOfFrom(s, sep, 0) == Some(p)
    ensures Split(s, sep) == [s[..p]] + Split(s[p + |sep|..], sep)
  {
  }

  /** The first occurrence and everything after it count towards the occurrences. */
  lemma CountStep(s: string, sep: string, p: nat)
    requires |sep| > 0 && IndexOfFrom(s, sep, 0) == Some(p)
    ensures Occurrences(s, sep) >= 1 + Occurrences(s[p + |sep|..], sep)
  {
    var c := CountFrom(s, sep, p + 1);
    assert Occurrences(s, sep) == 1 + c by {
      CountFromNoneBefore(s, sep, 0, p);
    }
    var d := p + |sep|;
    CountFromMonotone(s, sep, p + 1, d);
    CountFromSuffix(s, sep, d, 0);
    assert CountFrom(s[d..], sep, 0) == CountFrom(s, sep, d);
  }

  /** Without the separator, splitting gives back the whole text as the only piece. */
  lemma SplitAbsent(s: string, sep: string)
    requires |sep| > 0
    ensures !Contains(s, sep) ==> Split(s, sep) == [s]
    ensures Contains(s, sep) ==> |Split(s, sep)| >= 2
  {
    match IndexOfFrom(s, sep, 0)
    case None =>
      assert !Contains(s, sep);
    case Some(p) =>
      assert 0 <= p <= |s| && HasAt(s, p, sep);
      SplitStep(s, sep, p);
  }

  /** `s.replace(pat, rep)` with a string pattern: only the first occurrence is replaced. */
  function ReplaceFirst(s: string, pat: string, rep: string): (r: string)
    ensures !Contains(s, pat) ==> r == s
    ensures forall p :: HasAt(s, p, pat) && (forall q :: 0 <= q < p ==> !HasAt(s, q, pat)) ==>
              r == s[..p] + rep + s[p + |pat|..]
  {
    match IndexOfFrom(s, pat, 0)
    case None => s
    case Some(p) => s[..p] + rep + s[p + |pat|..]
  }
}

=== FILE: types.dfy ===
/** The quiz data model: one answer choice, one question, one quiz. */
module Types {

  /** One answer choice; `letter` is the source's `label` (a reserved word here), `content` its text. */
  datatype Option = Option(letter: string, content: string)

  /**
    One question. `id` is the question's number, `text` its prompt, and
    `correctAnswer` the label the document marks as right. The source's optional
    `rawType` field is never filled in by the parser and is not modelled.
   */
  datatype Question = Question(id: int, text: string, options: seq<Option>, correctAnswer: string)

  /** A parsed document. `id` is an opaque identifier supplied by the caller. */
  datatype Quiz = Quiz(id: string, title: string, questions: seq<Question>, fileName: string)

  /** The option letters the document format recognises: `[A-D]`. */
  predicate IsLabel(c: char) {
    'A' <= c <= 'D'
  }

  /** A one-letter label string, as every label the parser produces is. */
  predicate IsLabelString(s: string) {
    |s| == 1 && IsLabel(s[0])
  }
}
